=== FILE: README.md ===
# StockFlux chatbot intent matcher, modelled in Dafny

StockFlux's chatbot answers free-text questions about medicines in stock.
The `ChatBot` class (`stock_flux_api/chatbot.py`) does this in a short pipeline
over an immutable catalogue of intents. Each intent has a tag (a medicine
name), some example phrasings (patterns) and some curated responses. The
model follows the pipeline stage by stage:

1. `__init__` flattens the intents into the parallel lists `padroes`
   (lower-cased patterns) and `tags`. It then fits a `CountVectorizer`
   vocabulary on the patterns, which raises when no pattern yields a term.
   This is modelled by `Catalogue.Flatten`, `VectorSpace.FitVocabulary` and
   `ChatBot.Build`.
2. `corrigir_ortografia` lower-cases the message and splits it on whitespace.
   It snaps each word to its closest pattern word through
   `difflib.get_close_matches(..., n=1, cutoff=0.8)`, then joins the words with
   single spaces. This is modelled by `Spelling.Correct`.
3. `encontrar_intencao` encodes the corrected message and every pattern as
   count vectors. It scores them by cosine similarity, takes numpy's `argmax`
   (the first index of the maximum), and accepts the match only when the score
   is strictly above 0.5. This is modelled by `ChatBot.Classify`.
4. `obter_resposta` chooses the reply:
   - no tag gives the fixed fallback text;
   - the tag `Oxcarbazepina` gives a random element of its intent's responses;
   - any other tag gives the sentence "O estoque de T está disponível.".

   This is modelled by `ChatBot.Respond` and `ChatBot.Reply`.

Modules: `Wrappers` (Option/Result), `Text` (Python's `lower`, `split`,
`" ".join`), `Ranking` (first-occurrence argmax), `Catalogue`, `Spelling`,
`VectorSpace` and `ChatBot`.

Two library pieces enter as function-typed parameters carried by the bot:
- difflib's `SequenceMatcher.ratio` (`Spelling.Ratio`). The laws the model
  relies on are stated as `Spelling.RatioLaws`: the score lies in [0, 1] and
  equals 1 exactly for equal strings. They are assumed only by the lemmas
  that need them.
- The vectoriser's analyzer (`VectorSpace.Analyzer`), from a string to its
  sequence of terms. It is deliberately not assumed to agree with the
  whitespace split used by the spelling corrector.

Cosine similarity is kept exact. `VectorSpace.CosineSquared` is the squared
cosine as a Dafny `real` (a rational). Count vectors are `seq<nat>`, so the
dot product is non-negative and the cosine is the non-negative square root of
that value. The test `cosine > 0.5` is therefore `4·dot² > ‖q‖²·‖p‖²` in
integers (`VectorSpace.AboveHalf`). `VectorSpace.CauchySchwarz` proves that
every score lies in [0, 1].

Facts about the code that the model keeps:
- The code does not reject empty pattern lists or duplicate tags. Only an
  empty fitted vocabulary stops construction.
- The special reply policy is the hard-coded tag `Oxcarbazepina`, not a
  per-intent attribute.
- The thresholds 0.8 and 0.5 are literals, not configuration.
- The replies are Portuguese texts.
- The pattern vectors are re-encoded on every call (line 46), not cached.
  Encoding is a pure function, so the values are the same either way.
- `if intencao:` uses Python truthiness, so a matched empty tag `""` also gets
  the fallback reply.
- `random.choice` on an intent with no responses raises `IndexError`. The
  model returns `Failure(NoResponses)` for it.

## Model

| member | source | states |
|---|---|---|
| Catalogue.Flatten | stock_flux_api/chatbot.py:14-19 | `padroes` and `tags` have the same length, one entry per pattern of the catalogue |
| Catalogue.FlattenPositions | stock_flux_api/chatbot.py:14-19 | pattern m of intent k sits, lower-cased, at index (patterns of earlier intents) + m of `padroes`, and `tags` holds intent k's tag at that same index: catalogue order, patterns in order |
| Catalogue.FlattenCovers | stock_flux_api/chatbot.py:14-19 | every index entry is the lower-cased pattern of some intent and carries that intent's tag |
| Catalogue.OffsetGrows | stock_flux_api/chatbot.py:16-17 | the patterns of earlier intents never outnumber all patterns, so every intent's block lies inside the flattened lists |
| VectorSpace.FitVocabulary | stock_flux_api/chatbot.py:22 | the fitted vocabulary holds no term twice, and a term is in it exactly when some pattern's analysis contains it |
| VectorSpace.AddTerms | stock_flux_api/chatbot.py:22 | adding a document's terms to a vocabulary keeps it duplicate-free and yields exactly the old terms plus the new ones |
| VectorSpace.VocabularyEmpty | stock_flux_api/chatbot.py:22 | the vocabulary is empty exactly when no pattern yields a term, which is when fitting fails |
| ChatBot.Build | stock_flux_api/chatbot.py:13-22 | construction fails exactly when no pattern yields a term; otherwise the bot keeps the catalogue, the flattened index and the vocabulary that belong to it, and carries exactly the given ratio and analyzer |
| ChatBot.ValidHasPatterns | stock_flux_api/chatbot.py:22 | a constructed bot has at least one pattern, so the argmax over pattern scores is always defined |
| Text.Lower | stock_flux_api/chatbot.py:26 | lower-casing keeps the length; each ASCII or Latin-1 capital becomes its small letter (32 code points on), every other character is kept as it is, separators stay separators, and no ASCII capital is left |
| Text.LowerIdempotent | stock_flux_api/chatbot.py:26 | lower-casing a lower-cased message changes nothing |
| Text.Split | stock_flux_api/chatbot.py:26-27 | `split()` yields at most (length + 1) / 2 words, since neighbouring words are at least one separator apart; what the words are is stated by `Text.SplitWords` and `Text.SplitJoin` |
| Text.Join | stock_flux_api/chatbot.py:36 | `" ".join` of no strings is empty; otherwise its length is the total length of the strings plus one space between each pair, and it starts with the first string |
| Text.SplitWords | stock_flux_api/chatbot.py:26 | `split()` yields only non-empty words free of separators, and yields none exactly when the string is blank |
| Text.SplitJoin | stock_flux_api/chatbot.py:33-36 | splitting the single-space join of words gives back exactly those words |
| Text.JoinEmpty | stock_flux_api/chatbot.py:36 | joining words gives the empty string exactly when there are no words |
| Text.SplitSpaceJoin | stock_flux_api/chatbot.py:27 | splitting two strings glued by a space is splitting each one and concatenating the results |
| Text.SplitWord | stock_flux_api/chatbot.py:27 | a single word splits to itself |
| Text.JoinedWords | stock_flux_api/chatbot.py:27 | a word of the space-joined patterns is exactly a word of one of the patterns |
| Spelling.CorpusWords | stock_flux_api/chatbot.py:27 | the correction vocabulary contains exactly the whitespace words of the patterns |
| Spelling.CloseMatch | stock_flux_api/chatbot.py:31-35 | there is no match exactly when no candidate reaches the 0.8 cutoff; a match is a candidate that reaches the cutoff and scores at least as well as every other candidate |
| Spelling.Snap | stock_flux_api/chatbot.py:31-35 | a word is kept or replaced by a corpus word that reaches the cutoff; when some corpus word reaches the cutoff the result is a best-scoring corpus word; when none does the word is kept |
| Spelling.CloseMatchKeepsKnownWord | stock_flux_api/chatbot.py:31-33 | a word that is already a candidate is its own close match, because it scores 1 against itself |
| Spelling.CorrectedWordsShape | stock_flux_api/chatbot.py:26-35 | one corrected word per message word, each a word again; a changed word is a corpus word reaching the cutoff; a word with a corpus word at the cutoff becomes a best-scoring corpus word at the cutoff; a word with no candidate at the cutoff, or already in the corpus, is kept |
| Spelling.Correct | stock_flux_api/chatbot.py:24-36 | the result is empty exactly for a blank message; it is its words joined by single spaces; its split has one word per word of the lower-cased message; each word is kept or replaced by a pattern word that reaches the cutoff; a word with some corpus word at the cutoff is replaced by a best-scoring one; unmatched and known words are kept |
| VectorSpace.Encode | stock_flux_api/chatbot.py:45-46 | one count per vocabulary term, and a count is positive exactly when the term occurs in the text |
| ChatBot.Query | stock_flux_api/chatbot.py:45 | the message vector has one count per vocabulary term, positive exactly when the corrected message's analysis contains that term |
| ChatBot.PatternVectors | stock_flux_api/chatbot.py:46 | one vector per pattern, each over the whole vocabulary; for a constructed bot a pattern's vector is zero exactly when the pattern yields no term |
| VectorSpace.EncodeCounts | stock_flux_api/chatbot.py:45-46 | each entry counts the occurrences of its term: no terms give the zero vector, and one more term adds one to its own entry and leaves every other entry unchanged |
| VectorSpace.EncodeZero | stock_flux_api/chatbot.py:45 | a text encodes to the zero vector exactly when none of its terms is in the vocabulary |
| VectorSpace.EncodeIgnoresUnknown | stock_flux_api/chatbot.py:45 | a term outside the vocabulary changes no entry of the encoding |
| VectorSpace.NormSqZero | stock_flux_api/chatbot.py:49 | the squared norm is zero exactly on the zero vector |
| VectorSpace.DotZero | stock_flux_api/chatbot.py:49 | the zero vector has dot product 0 with every vector |
| VectorSpace.CauchySchwarz | stock_flux_api/chatbot.py:49 | the squared dot product is at most the product of the squared norms, so no cosine exceeds 1 |
| VectorSpace.CosineSquared | stock_flux_api/chatbot.py:49 | the squared cosine lies in [0, 1] and is 0 when either vector is zero |
| ChatBot.Scores | stock_flux_api/chatbot.py:49 | one score per pattern, each in [0, 1], and all 0 when the message vector is zero |
| VectorSpace.AboveHalf | stock_flux_api/chatbot.py:56 | a pattern can only be accepted when it shares a term with the message (positive dot product) |
| VectorSpace.AboveHalfExact | stock_flux_api/chatbot.py:56 | the integer test 4·dot² > ‖q‖²‖p‖² holds exactly when the squared cosine exceeds 1/4, that is, when the cosine exceeds 0.5 |
| VectorSpace.SelfSimilarity | stock_flux_api/chatbot.py:49 | a non-zero vector has cosine 1 with itself |
| Ranking.FirstArgMax | stock_flux_api/chatbot.py:52-53 | the index returned holds the maximum score, and every earlier index scores strictly less |
| Ranking.FirstMaxUnique | stock_flux_api/chatbot.py:52 | only one index can be the first maximum |
| ChatBot.Classify | stock_flux_api/chatbot.py:38-58 | a tag is returned exactly when some pattern's cosine is strictly above 0.5, and it is the tag of the first pattern reaching the maximum score |
| ChatBot.UnknownTermsNoMatch | stock_flux_api/chatbot.py:45-58 | when the corrected message has no vocabulary term, every score is 0 and there is no match |
| ChatBot.BlankMessageNoMatch | stock_flux_api/chatbot.py:24-58 | an empty or blank message corrects to "" and is never matched |
| ChatBot.HalfIsRejected | stock_flux_api/chatbot.py:56-58 | a best cosine of exactly 0.5 gives no match |
| Ranking.PerfectScoreWins | stock_flux_api/chatbot.py:52-53 | when no score exceeds 1, a score of 1 puts the first maximum at or before that index, with score 1 |
| ChatBot.PatternQuery | stock_flux_api/chatbot.py:26-49 | a pattern sent verbatim corrects to its own words re-joined by single spaces (no word is changed) and scores 1 against its own index entry |
| ChatBot.PerfectScoreClassified | stock_flux_api/chatbot.py:52-57 | a message that scores 1 against pattern i is classified with the tag of the first pattern it scores 1 against, which is i or an earlier one |
| ChatBot.SelfMatch | stock_flux_api/chatbot.py:14-58 | a catalogue pattern sent verbatim scores 1 against its own entry, and is matched to the tag of the first pattern that also scores 1 |
| ChatBot.FindIntent | stock_flux_api/chatbot.py:64-65 | the result is the first intent carrying the tag, and there is none exactly when no intent carries it |
| ChatBot.Respond | stock_flux_api/chatbot.py:62-71 | no tag, an empty tag or an unknown tag gives the fallback; another known tag gives the availability sentence; `Oxcarbazepina` gives one of the first such intent's responses, and an error exactly when those are empty |
| ChatBot.EveryResponseReachable | stock_flux_api/chatbot.py:67-68 | every curated response of `Oxcarbazepina` is produced by some random draw |
| ChatBot.ClassifiedTagIsKnown | stock_flux_api/chatbot.py:57-65 | every tag the classifier returns is carried by some catalogue intent, so the reply loop always finds it |
| ChatBot.Reply | stock_flux_api/chatbot.py:60-71 | no match, or a matched empty tag, gives the fallback; a non-empty tag other than `Oxcarbazepina` gives the availability sentence; `Oxcarbazepina` gives one of its curated responses, or fails when it has none; nothing else fails |
| ChatBot.UnknownTermsFallback | stock_flux_api/chatbot.py:45-71 | a message with no known term gets the fallback reply, whatever the random draw |

## Left out

- Reading `stock_flux_api/medicamento.json` (lines 10-11): the catalogue is an input sequence of `Intent` values. A missing file, malformed JSON or missing keys are not modelled.
- The debug `print` (line 42), the interactive `teste_manual` loop and the `__main__` block (lines 73-85): console I/O.
- Everything in `stock_flux_api/main.py`: HTTP routing, Swagger models, the Oracle database and its stored procedures, and the discontinuation notice text. The HTTP handler calls `bot.get_response`, which `ChatBot` does not define; the model covers `obter_resposta`, the method that exists.
- Spelling.CloseMatch: does not fix which of several equally scoring candidates difflib returns. The model returns the first in corpus order, but its contract only promises a best-scoring one, because difflib's ordering is not modelled.
- Spelling.RatioLaws: difflib's matching-block algorithm is not modelled. The ratio is a parameter, assumed only to lie in [0, 1] and to equal 1 exactly on equal strings.
- VectorSpace.FitVocabulary: `CountVectorizer`'s token pattern and lower-casing are a parameter (the analyzer). The vectoriser sorts its vocabulary alphabetically, while the model keeps first-occurrence order. Dot products and norms do not depend on the order of dimensions.
- ChatBot.PatternQuery: assumes that the analyzer gives the same terms however the words of a pattern are spaced (`analyze(Join(Split(p))) == analyze(p)`), for the same reason as `ChatBot.SelfMatch` below.
- ChatBot.SelfMatch: assumes that the analyzer gives the same terms however the words of a pattern are spaced. The vectoriser's regular-expression tokenizer behaves this way, but the abstract analyzer does not promise it.
- ChatBot.BlankMessageNoMatch: assumes that the analyzer finds no term in the empty string.
- Floating point: the model compares exact rationals, and the source's floating-point cosine can differ from them in three ways.
  - A score lying exactly on 0.5 can round to either side of the threshold.
  - Scores that are exactly equal can round apart, so `argmax` (line 52) may pick a later index than the first maximum that `ChatBot.Classify` promises.
  - The self-similarity that `ChatBot.SelfMatch` proves to be exactly 1 can come out as 0.9999999999999998.
- Text.LowerChar: lower-cases only the ASCII and Latin-1 capitals, not the full Unicode case mapping of `str.lower()`.
- `random.choice`: its random source is the `draw` parameter of `ChatBot.Respond`, which selects entry `draw % |responses|`.

=== FILE: catalogue.dfy ===
/** The intent catalogue and the training index `ChatBot.__init__` builds
    from it. */
module Catalogue {
  import opened Text

  /** One entry of the catalogue: a tag (a medicine name), the phrasings that
      ask about it and the replies curated for it. */
  datatype Intent = Intent(tag: string, patterns: seq<string>, responses: seq<string>)

  /** The parallel sequences `padroes` and `tags`: entry `i` is a lower-cased
      pattern and the tag of the intent that owns it. */
  datatype TrainingIndex = TrainingIndex(patterns: seq<string>, tags: seq<string>)

  /** Number of patterns in `intents`. */
  function PatternCount(intents: seq<Intent>): nat {
    if |intents| == 0 then 0
    else PatternCount(intents[..|intents| - 1]) + |intents[|intents| - 1].patterns|
  }

  /** Position of the first pattern of intent `k` in the flattened index. */
  function Offset(intents: seq<Intent>, k: nat): nat
    requires k <= |intents|
  {
    PatternCount(intents[..k])
  }

  /** The two nested loops of the constructor: intents in catalogue order,
      and within each intent its patterns in order. */
  function Flatten(intents: seq<Intent>): (r: TrainingIndex)
    ensures |r.patterns| == |r.tags| == PatternCount(intents)
  {
    if |intents| == 0 then TrainingIndex([], [])
    else
      var last := intents[|intents| - 1];
      var rest := Flatten(intents[..|intents| - 1]);
      TrainingIndex(
        rest.patterns + seq(|last.patterns|, m requires 0 <= m < |last.patterns| => Lower(last.patterns[m])),
        rest.tags + seq(|last.patterns|, m => last.tag))
  }

  /** Pattern `m` of intent `k` sits, lower-cased, at `Offset(intents, k) + m`,
      next to the tag of intent `k`. */
  lemma {:induction false} FlattenPositions(intents: seq<Intent>, k: nat, m: nat)
    requires k < |intents| && m < |intents[k].patterns|
    ensures Offset(intents, k) + m < |Flatten(intents).patterns|
    ensures Flatten(intents).patterns[Offset(intents, k) + m] == Lower(intents[k].patterns[m])
    ensures Flatten(intents).tags[Offset(intents, k) + m] == intents[k].tag
  {
    var n := |intents|;
    var init := intents[..n - 1];
    if k == n - 1 {
      assert intents[..k] == init;
    } else {
      assert init[..k] == intents[..k];
      FlattenPositions(init, k, m);
      OffsetGrows(init, k + 1);
      assert init[..k + 1] == init[..k] + [init[k]];
      assert init[..k + 1][..k] == init[..k];
    }
  }

  /** The first pattern of an intent comes after all patterns of earlier intents. */
  lemma {:induction false} OffsetGrows(intents: seq<Intent>, k: nat)
    requires k <= |intents|
    ensures Offset(intents, k) <= PatternCount(intents)
    decreases |intents| - k
  {
    if k < |intents| {
      OffsetGrows(intents, k + 1);
      assert intents[..k + 1][..k] == intents[..k];
    } else {
      assert intents[..k] == intents;
    }
  }

  /** Every index entry comes from some pattern of some intent, so every tag
      of the index is the tag of a catalogue intent. */
  lemma {:induction false} FlattenCovers(intents: seq<Intent>, i: nat)
    requires i < |Flatten(intents).tags|
    ensures exists k, m :: 0 <= k < |intents| && 0 <= m < |intents[k].patterns|
              && Flatten(intents).patterns[i] == Lower(intents[k].patterns[m])
              && Flatten(intents).tags[i] == intents[k].tag
  {
    var n := |intents|;
    var init := intents[..n - 1];
    var rest := Flatten(init);
    if i < |rest.tags| {
      FlattenCovers(init, i);
      var k, m :| 0 <= k < |init| && 0 <= m < |init[k].patterns|
              && rest.patterns[i] == Lower(init[k].patterns[m]) && rest.tags[i] == init[k].tag;
      assert init[k] == intents[k];
    } else {
      var m := i - |rest.tags|;
      assert Flatten(intents).patterns[i] == Lower(intents[n - 1].patterns[m]);
    }
  }
}

=== FILE: chatbot.dfy ===
/** The `ChatBot` class: construction from a catalogue, intent detection
    (`encontrar_intencao`) and reply selection (`obter_resposta`). */
module ChatBot {
  import opened Wrappers
  import opened Text
  import opened Ranking
  import opened Catalogue
  import opened Spelling
  import opened VectorSpace

  /** A constructed bot: the catalogue, the flattened `padroes`/`tags`, the
      vectoriser's fitted vocabulary, and the two library functions it uses
      (difflib's ratio and the vectoriser's analyzer). */
  datatype Bot = Bot(
    intents: seq<Intent>,
    index: TrainingIndex,
    vocabulary: seq<string>,
    ratio: Ratio,
    analyze: Analyzer)

  /** `CountVectorizer().fit` raises when no pattern yields a single term. */
  datatype BuildError = EmptyVocabulary

  /** The state `__init__` leaves behind. */
  predicate Valid(bot: Bot) {
    && bot.index == Flatten(bot.intents)
    && bot.vocabulary == FitVocabulary(bot.analyze, bot.index.patterns)
    && |bot.vocabulary| > 0
  }

  /** `ChatBot.__init__` after the catalogue has been read: flatten the
      intents and fit the vocabulary, failing when it comes out empty. */
  function Build(intents: seq<Intent>, ratio: Ratio, analyze: Analyzer): (r: Result<Bot, BuildError>)
    ensures r.Failure? <==>
      forall i :: 0 <= i < |Flatten(intents).patterns| ==> analyze(Flatten(intents).patterns[i]) == []
    ensures r.Success? ==> Valid(r.value) && r.value.intents == intents
    ensures r.Success? ==> r.value.ratio == ratio && r.value.analyze == analyze
  {
    var index := Flatten(intents);
    var vocabulary := FitVocabulary(analyze, index.patterns);
    VocabularyEmpty(analyze, index.patterns);
    if |vocabulary| == 0 then Failure(EmptyVocabulary)
    else Success(Bot(intents, index, vocabulary, ratio, analyze))
  }

  /** A valid bot has at least one pattern. */
  lemma ValidHasPatterns(bot: Bot)
    requires Valid(bot)
    ensures |bot.index.patterns| > 0
  {
    VocabularyEmpty(bot.analyze, bot.index.patterns);
  }

  /** The count vectors of the patterns (`vetorizador.transform(self.padroes)`). */
  function PatternVectors(bot: Bot): (vs: seq<seq<nat>>)
    ensures |vs| == |bot.index.patterns|
    ensures forall i :: 0 <= i < |vs| ==> |vs[i]| == |bot.vocabulary|
    ensures Valid(bot) ==>
      forall i :: 0 <= i < |vs| ==> (IsZero(vs[i]) <==> bot.analyze(bot.index.patterns[i]) == [])
  {
    var vs := seq(|bot.index.patterns|, i requires 0 <= i < |bot.index.patterns| =>
      Encode(bot.vocabulary, bot.analyze(bot.index.patterns[i])));
    assert Valid(bot) ==>
      forall i :: 0 <= i < |vs| ==> (IsZero(vs[i]) <==> bot.analyze(bot.index.patterns[i]) == []) by {
      if Valid(bot) {
        forall i | 0 <= i < |vs|
          ensures IsZero(vs[i]) <==> bot.analyze(bot.index.patterns[i]) == []
        {
          var terms := bot.analyze(bot.index.patterns[i]);
          EncodeZero(bot.vocabulary, terms);
          if terms != [] {
            assert terms[0] in bot.vocabulary;
          }
        }
      }
    }
    vs
  }

  /** The message after spelling correction. */
  function Corrected(bot: Bot, message: string): string {
    Correct(bot.ratio, bot.index.patterns, message)
  }

  /** The count vector of the corrected message (`vetor_mensagem`). */
  function Query(bot: Bot, message: string): (q: seq<nat>)
    ensures |q| == |bot.vocabulary|
    ensures forall j :: 0 <= j < |q| ==> (q[j] > 0 <==> bot.vocabulary[j] in bot.analyze(Corrected(bot, message)))
  {
    Encode(bot.vocabulary, bot.analyze(Corrected(bot, message)))
  }

  /** The squared cosine of the message against every pattern (`similaridades`). */
  function Scores(bot: Bot, message: string): (s: seq<real>)
    ensures |s| == |bot.index.patterns|
    ensures forall i :: 0 <= i < |s| ==> 0.0 <= s[i] <= 1.0
    ensures IsZero(Query(bot, message)) ==> forall i :: 0 <= i < |s| ==> s[i] == 0.0
  {
    var q := Query(bot, message);
    var vs := PatternVectors(bot);
    seq(|vs|, i requires 0 <= i < |vs| => CosineSquared(q, vs[i]))
  }

  /** `encontrar_intencao(message)`: the tag of the first best-scoring
      pattern, when its cosine is strictly above 0.5 (squared: 1/4). */
  function Classify(bot: Bot, message: string): (r: Option<string>)
    requires Valid(bot)
    ensures r.Some? <==> exists i :: 0 <= i < |Scores(bot, message)| && Scores(bot, message)[i] > 0.25
    ensures r.Some? ==> exists i :: IsFirstMax(Scores(bot, message), i) && r.value == bot.index.tags[i]
  {
    ValidHasPatterns(bot);
    var q := Query(bot, message);
    var vs := PatternVectors(bot);
    var s := Scores(bot, message);
    var best := FirstArgMax(s);
    AboveHalfExact(q, vs[best]);
    if AboveHalf(q, vs[best]) then Some(bot.index.tags[best]) else None
  }

  /** A message none of whose corrected terms is in the vocabulary scores 0
      against every pattern and is never matched. */
  lemma UnknownTermsNoMatch(bot: Bot, message: string)
    requires Valid(bot)
    requires forall t :: t in bot.analyze(Corrected(bot, message)) ==> t !in bot.vocabulary
    ensures forall i :: 0 <= i < |Scores(bot, message)| ==> Scores(bot, message)[i] == 0.0
    ensures Classify(bot, message) == None
  {
    var q := Query(bot, message);
    EncodeZero(bot.vocabulary, bot.analyze(Corrected(bot, message)));
    assert IsZero(q);
    var s := Scores(bot, message);
    forall i | 0 <= i < |s|
      ensures s[i] == 0.0
    {
      assert s[i] == CosineSquared(q, PatternVectors(bot)[i]);
    }
  }

  /** An empty or blank message is never matched, given that the analyzer
      finds no term in the empty string. */
  lemma BlankMessageNoMatch(bot: Bot, message: string)
    requires Valid(bot)
    requires bot.analyze("") == []
    requires forall i :: 0 <= i < |message| ==> IsSpace(message[i])
    ensures Corrected(bot, message) == ""
    ensures Classify(bot, message) == None
  {
    UnknownTermsNoMatch(bot, message);
  }

  /** A score of exactly one half is not enough: when the best squared cosine
      is 1/4 there is no match. */
  lemma HalfIsRejected(bot: Bot, message: string, i: nat)
    requires Valid(bot)
    requires IsFirstMax(Scores(bot, message), i) && Scores(bot, message)[i] == 0.25
    ensures Classify(bot, message) == None
  {
  }

  /** Self-match: sending a catalogue pattern verbatim is matched with score 1,
      to the tag of the first pattern whose vector is parallel to it (its own
      tag unless an earlier pattern is parallel), provided difflib's ratio
      obeys its laws, the analyzer ignores how words are spaced, and the
      pattern has a term. */
  lemma SelfMatch(bot: Bot, k: nat, m: nat)
    requires Valid(bot) && RatioLaws(bot.ratio)
    requires k < |bot.intents| && m < |bot.intents[k].patterns|
    requires var p := Lower(bot.intents[k].patterns[m]);
      bot.analyze(Join(Split(p))) == bot.analyze(p) && bot.analyze(p) != []
    ensures var i := Offset(bot.intents, k) + m;
      && i < |Scores(bot, bot.intents[k].patterns[m])|
      && Scores(bot, bot.intents[k].patterns[m])[i] == 1.0
      && exists j :: 0 <= j <= i && IsFirstMax(Scores(bot, bot.intents[k].patterns[m]), j)
           && Scores(bot, bot.intents[k].patterns[m])[j] == 1.0
           && Classify(bot, bot.intents[k].patterns[m]) == Some(bot.index.tags[j])
  {
    var message := bot.intents[k].patterns[m];
    var i := Offset(bot.intents, k) + m;
    FlattenPositions(bot.intents, k, m);
    PatternQuery(bot, message, i);
    PerfectScoreClassified(bot, message, i);
  }

  /** A message that scores 1 against pattern `i` is classified with the tag
      of the first pattern it scores 1 against, which is `i` or earlier. */
  lemma PerfectScoreClassified(bot: Bot, message: string, i: nat)
    requires Valid(bot)
    requires i < |Scores(bot, message)| && Scores(bot, message)[i] == 1.0
    ensures exists j :: (0 <= j <= i && IsFirstMax(Scores(bot, message), j)
      && Scores(bot, message)[j] == 1.0
      && Classify(bot, message) == Some(bot.index.tags[j]))
  {
    var s := Scores(bot, message);
    var j := FirstArgMax(s);
    PerfectScoreWins(s, i);
    assert j <= i && s[j] == 1.0 by {
      var j' :| 0 <= j' <= i && IsFirstMax(s, j') && s[j'] == 1.0;
      FirstMaxUnique(s, j, j');
    }
    var r := Classify(bot, message);
    assert r.Some? by {
      assert s[i] > 0.25;
    }
    assert r == Some(bot.index.tags[j]) by {
      var j' :| IsFirstMax(s, j') && r.value == bot.index.tags[j'];
      FirstMaxUnique(s, j, j');
    }
  }

  /** A pattern sent verbatim survives correction and encodes to its own
      pattern vector, which is non-zero when the pattern has a term. */
  lemma PatternQuery(bot: Bot, message: string, i: nat)
    requires Valid(bot) && RatioLaws(bot.ratio)
    requires i < |bot.index.patterns| && bot.index.patterns[i] == Lower(message)
    requires var p := Lower(message);
      bot.analyze(Join(Split(p))) == bot.analyze(p) && bot.analyze(p) != []
    ensures Corrected(bot, message) == Join(Split(Lower(message)))
    ensures Scores(bot, message)[i] == 1.0
  {
    var p := bot.index.patterns[i];
    var ins := Split(Lower(message));
    forall w | w in ins
      ensures w in CorpusWords(bot.index.patterns)
    {
      assert w in Split(bot.index.patterns[i]);
    }
    CorrectedWordsShape(bot.ratio, bot.index.patterns, message);
    var cw := CorrectedWords(bot.ratio, bot.index.patterns, message);
    assert cw == ins;
    assert Corrected(bot, message) == Join(ins);
    var q := Query(bot, message);
    var vs := PatternVectors(bot);
    assert q == vs[i];
    assert !IsZero(q) by {
      assert bot.analyze(p)[0] in bot.vocabulary;
      EncodeZero(bot.vocabulary, bot.analyze(p));
    }
    SelfSimilarity(q);
  }

  /** The fixed reply when no intent is recognised. */
  const Fallback: string := "Desculpe, não entendi sua pergunta."

  /** The one tag whose reply is drawn from its curated responses. */
  const CuratedTag: string := "Oxcarbazepina"

  /** The templated reply for any other tag. */
  function Available(tag: string): string {
    "O estoque de " + tag + " está disponível."
  }

  /** `random.choice` on an empty list raises `IndexError`. */
  datatype ReplyError = NoResponses

  /** `i` is the first intent of the catalogue carrying `tag`. */
  predicate IsFirstWithTag(intents: seq<Intent>, tag: string, i: int) {
    && 0 <= i < |intents|
    && intents[i].tag == tag
    && forall j :: 0 <= j < i ==> intents[j].tag != tag
  }

  /** The loop `for dados_intencao in self.intents['intents']` looking for
      the first intent with the given tag, starting at `from`. */
  function FindIntent(intents: seq<Intent>, tag: string, from: nat): (r: Option<nat>)
    requires from <= |intents|
    requires forall j :: 0 <= j < from ==> intents[j].tag != tag
    ensures r.Some? ==> IsFirstWithTag(intents, tag, r.value)
    ensures r.None? <==> forall j :: 0 <= j < |intents| ==> intents[j].tag != tag
    decreases |intents| - from
  {
    if from == |intents| then None
    else if intents[from].tag == tag then Some(from)
    else FindIntent(intents, tag, from + 1)
  }

  /** `obter_resposta` once the intent is known. `draw` is the random source
      behind `random.choice`, which picks entry `draw % |responses|`. An
      empty tag is falsy in Python and falls back like no tag at all. */
  function Respond(intents: seq<Intent>, intent: Option<string>, draw: nat): (r: Result<string, ReplyError>)
    ensures intent.None? ==> r == Success(Fallback)
    ensures intent == Some("") ==> r == Success(Fallback)
    ensures forall t :: intent == Some(t) && (forall j :: 0 <= j < |intents| ==> intents[j].tag != t)
              ==> r == Success(Fallback)
    ensures forall t, j :: intent == Some(t) && t != "" && t != CuratedTag && 0 <= j < |intents| && intents[j].tag == t
              ==> r == Success(Available(t))
    ensures forall k ::
              (intent == Some(CuratedTag) && IsFirstWithTag(intents, CuratedTag, k) && intents[k].responses != [])
              ==> r.Success? && r.value in intents[k].responses
    ensures r.Failure? <==>
              intent == Some(CuratedTag)
              && exists k :: IsFirstWithTag(intents, CuratedTag, k) && intents[k].responses == []
  {
    if intent.None? || intent.value == "" then Success(Fallback)
    else
      match FindIntent(intents, intent.value, 0)
      case None => Success(Fallback)
      case Some(k) =>
        if intent.value == CuratedTag then
          var responses := intents[k].responses;
          if |responses| == 0 then Failure(NoResponses)
          else Success(responses[draw % |responses|])
        else
          Success(Available(intent.value))
  }

  /** Every curated response can come out of the random pick. */
  lemma EveryResponseReachable(intents: seq<Intent>, k: nat, x: string)
    requires IsFirstWithTag(intents, CuratedTag, k)
    requires x in intents[k].responses
    ensures exists draw: nat :: Respond(intents, Some(CuratedTag), draw) == Success(x)
  {
    var responses := intents[k].responses;
    var d :| 0 <= d < |responses| && responses[d] == x;
    var found := FindIntent(intents, CuratedTag, 0);
    assert found == Some(k);
    assert d % |responses| == d;
    assert Respond(intents, Some(CuratedTag), d) == Success(x);
  }

  /** Every tag `Classify` returns belongs to a catalogue intent. */
  lemma ClassifiedTagIsKnown(bot: Bot, message: string)
    requires Valid(bot)
    requires Classify(bot, message).Some?
    ensures exists k :: IsFirstWithTag(bot.intents, Classify(bot, message).value, k)
  {
    var t := Classify(bot, message).value;
    var i :| IsFirstMax(Scores(bot, message), i) && t == bot.index.tags[i];
    FlattenCovers(bot.intents, i);
    assert FindIntent(bot.intents, t, 0).Some?;
  }

  /** `obter_resposta(message)`: classify, then choose the reply. */
  function Reply(bot: Bot, message: string, draw: nat): (r: Result<string, ReplyError>)
    requires Valid(bot)
    ensures Classify(bot, message).None? ==> r == Success(Fallback)
    ensures forall t :: Classify(bot, message) == Some(t) && t != "" && t != CuratedTag
              ==> r == Success(Available(t))
    ensures Classify(bot, message) == Some(CuratedTag) ==>
              exists k :: IsFirstWithTag(bot.intents, CuratedTag, k)
                && (if bot.intents[k].responses == [] then r == Failure(NoResponses)
                    else r.Success? && r.value in bot.intents[k].responses)
    ensures Classify(bot, message) == Some("") ==> r == Success(Fallback)
    ensures r.Failure? ==> Classify(bot, message) == Some(CuratedTag)
  {
    var intent := Classify(bot, message);
    if intent.Some? then ClassifiedTagIsKnown(bot, message); Respond(bot.intents, intent, draw)
    else Respond(bot.intents, intent, draw)
  }

  /** A message with no known term gets the fallback reply, whatever the draw. */
  lemma UnknownTermsFallback(bot: Bot, message: string, draw: nat)
    requires Valid(bot)
    requires forall t :: t in bot.analyze(Corrected(bot, message)) ==> t !in bot.vocabulary
    ensures Reply(bot, message, draw) == Success(Fallback)
  {
    UnknownTermsNoMatch(bot, message);
  }
}

=== FILE: ranking.dfy ===
/** Choosing the best of a list of scores, as numpy's `argmax` does: the
    first index at which the maximum is reached. */
module Ranking {

  /** `i` is the first index at which `s` reaches its maximum. */
  predicate IsFirstMax(s: seq<real>, i: int) {
    && 0 <= i < |s|
    && (forall j :: 0 <= j < |s| ==> s[j] <= s[i])
    && (forall j :: 0 <= j < i ==> s[j] < s[i])
  }

  /** `argmax` over a non-empty sequence of scores. */
  function FirstArgMax(s: seq<real>): (i: nat)
    requires |s| > 0
    ensures IsFirstMax(s, i)
  {
    if |s| == 1 then 0
    else
      var k := FirstArgMax(s[..|s| - 1]);
      if s[|s| - 1] > s[k] then |s| - 1 else k
  }

  /** The first maximal index is unique, so `FirstArgMax` is the only answer
      `IsFirstMax` admits. */
  lemma FirstMaxUnique(s: seq<real>, i: int, j: int)
    requires IsFirstMax(s, i) && IsFirstMax(s, j)
    ensures i == j
  {
    assert s[i] <= s[j] && s[j] <= s[i];
  }

  /** With every score at most 1, a score of exactly 1 at `i` puts the first
      maximum at or before `i`, with score 1. */
  lemma PerfectScoreWins(s: seq<real>, i: nat)
    requires i < |s| && s[i] == 1.0
    requires forall j :: 0 <= j < |s| ==> s[j] <= 1.0
    ensures exists j :: 0 <= j <= i && IsFirstMax(s, j) && s[j] == 1.0
  {
    var j := FirstArgMax(s);
    assert s[i] <= s[j];
  }
}

=== FILE: spelling.dfy ===
/** `corrigir_ortografia`: snapping each word of a message to the closest
    word of the patterns, through `difflib.get_close_matches(word, words,
    n=1, cutoff=0.8)`. */
module Spelling {
  import opened Wrappers
  import opened Text
  import opened Ranking

  /** `SequenceMatcher(None, candidate, word).ratio()`, seen as a score of a
      candidate against the word being corrected: `ratio(word, candidate)`.
      Its matching-block algorithm is outside the model and enters as a
      parameter. */
  type Ratio = (string, string) -> real

  /** The `cutoff` passed to `get_close_matches`. */
  const Cutoff: real := 0.8

  /** The laws of difflib's ratio the model relies on: it lies in [0, 1] and
      it is 1 exactly when the two strings are equal. */
  ghost predicate RatioLaws(ratio: Ratio) {
    forall a, b :: 0.0 <= ratio(a, b) <= 1.0 && (ratio(a, b) == 1.0 <==> a == b)
  }

  /** `get_close_matches(word, candidates, n=1, cutoff=0.8)`: a best-scoring
      candidate when one reaches the cutoff, and nothing otherwise. */
  function CloseMatch(ratio: Ratio, word: string, candidates: seq<string>): (r: Option<string>)
    ensures r.None? <==> forall c :: c in candidates ==> ratio(word, c) < Cutoff
    ensures r.Some? ==> r.value in candidates && Cutoff <= ratio(word, r.value)
    ensures r.Some? ==> forall c :: c in candidates ==> ratio(word, c) <= ratio(word, r.value)
  {
    if |candidates| == 0 then None
    else
      var scores := seq(|candidates|, i requires 0 <= i < |candidates| => ratio(word, candidates[i]));
      var best := FirstArgMax(scores);
      assert forall c :: c in candidates ==> ratio(word, c) <= scores[best] by {
        forall c | c in candidates
          ensures ratio(word, c) <= scores[best]
        {
          var i :| 0 <= i < |candidates| && candidates[i] == c;
          assert scores[i] == ratio(word, c);
        }
      }
      if scores[best] >= Cutoff then Some(candidates[best]) else None
  }

  /** A word already among the candidates is its own closest match. */
  lemma CloseMatchKeepsKnownWord(ratio: Ratio, word: string, candidates: seq<string>)
    requires RatioLaws(ratio)
    requires word in candidates
    ensures CloseMatch(ratio, word, candidates) == Some(word)
  {
    var r := CloseMatch(ratio, word, candidates);
    assert ratio(word, word) == 1.0;
    assert 1.0 <= ratio(word, r.value) <= 1.0;
  }

  /** The body of the loop over the message's words: the closest match, or
      the word itself when none clears the cutoff. */
  function Snap(ratio: Ratio, vocabulary: seq<string>, word: string): (w: string)
    ensures w == word || (w in vocabulary && Cutoff <= ratio(word, w))
    ensures (exists v :: v in vocabulary && Cutoff <= ratio(word, v)) ==>
              && w in vocabulary && Cutoff <= ratio(word, w)
              && forall v :: v in vocabulary ==> ratio(word, v) <= ratio(word, w)
    ensures (forall v :: v in vocabulary ==> ratio(word, v) < Cutoff) ==> w == word
  {
    match CloseMatch(ratio, word, vocabulary)
    case Some(v) => v
    case None => word
  }

  /** `todas_palavras_padroes`: the words of the patterns joined by spaces. */
  function CorpusWords(patterns: seq<string>): (ws: seq<string>)
    ensures forall w :: w in ws <==> exists k :: 0 <= k < |patterns| && w in Split(patterns[k])
  {
    var ws := Split(Join(patterns));
    assert forall w :: w in ws <==> exists k :: 0 <= k < |patterns| && w in Split(patterns[k]) by {
      forall w {
        JoinedWords(patterns, w);
      }
    }
    ws
  }

  /** The words of the lower-cased message, each snapped to the vocabulary. */
  function CorrectedWords(ratio: Ratio, patterns: seq<string>, message: string): (out: seq<string>)
  {
    var vocabulary := CorpusWords(patterns);
    var words := Split(Lower(message));
    seq(|words|, i requires 0 <= i < |words| => Snap(ratio, vocabulary, words[i]))
  }

  /** `corrigir_ortografia(message)`, with the patterns of the bot. */
  function Correct(ratio: Ratio, patterns: seq<string>, message: string): (r: string)
    ensures r == "" <==> forall i :: 0 <= i < |message| ==> IsSpace(message[i])
    ensures Join(Split(r)) == r
    ensures var ins := Split(Lower(message)); var outs := Split(r);
      && |outs| == |ins|
      && (forall i :: 0 <= i < |ins| && outs[i] != ins[i] ==>
            (exists k :: 0 <= k < |patterns| && outs[i] in Split(patterns[k]))
            && Cutoff <= ratio(ins[i], outs[i]))
      && (forall i :: 0 <= i < |ins| && (exists w :: w in CorpusWords(patterns) && Cutoff <= ratio(ins[i], w)) ==>
            && outs[i] in CorpusWords(patterns) && Cutoff <= ratio(ins[i], outs[i])
            && forall w :: w in CorpusWords(patterns) ==> ratio(ins[i], w) <= ratio(ins[i], outs[i]))
      && (forall i :: 0 <= i < |ins| && (forall w :: w in CorpusWords(patterns) ==> ratio(ins[i], w) < Cutoff)
            ==> outs[i] == ins[i])
      && (RatioLaws(ratio) ==> forall i :: 0 <= i < |ins| && ins[i] in CorpusWords(patterns) ==> outs[i] == ins[i])
  {
    var out := CorrectedWords(ratio, patterns, message);
    CorrectedWordsShape(ratio, patterns, message);
    SplitJoin(out);
    JoinEmpty(out);
    SplitWords(Lower(message));
    Join(out)
  }

  /** The snapped words are words again, one per word of the message. A word
      with a corpus word at the cutoff is replaced by a best-scoring corpus
      word; a word without one, or already in the corpus, is kept. */
  lemma CorrectedWordsShape(ratio: Ratio, patterns: seq<string>, message: string)
    ensures var ins := Split(Lower(message)); var out := CorrectedWords(ratio, patterns, message);
      && |out| == |ins|
      && (forall i :: 0 <= i < |out| ==> IsWord(out[i]))
      && (forall i :: 0 <= i < |ins| && out[i] != ins[i] ==>
            out[i] in CorpusWords(patterns) && Cutoff <= ratio(ins[i], out[i]))
      && (forall i :: 0 <= i < |ins| && (exists w :: w in CorpusWords(patterns) && Cutoff <= ratio(ins[i], w)) ==>
            && out[i] in CorpusWords(patterns) && Cutoff <= ratio(ins[i], out[i])
            && forall w :: w in CorpusWords(patterns) ==> ratio(ins[i], w) <= ratio(ins[i], out[i]))
      && (forall i :: 0 <= i < |ins| && (forall w :: w in CorpusWords(patterns) ==> ratio(ins[i], w) < Cutoff)
            ==> out[i] == ins[i])
      && (RatioLaws(ratio) ==> forall i :: 0 <= i < |ins| && ins[i] in CorpusWords(patterns) ==> out[i] == ins[i])
  {
    var vocabulary := CorpusWords(patterns);
    var ins := Split(Lower(message));
    var out := CorrectedWords(ratio, patterns, message);
    SplitWords(Lower(message));
    SplitWords(Join(patterns));
    forall i | 0 <= i < |ins|
      ensures IsWord(out[i])
      ensures out[i] != ins[i] ==> out[i] in vocabulary && Cutoff <= ratio(ins[i], out[i])
      ensures RatioLaws(ratio) && ins[i] in vocabulary ==> out[i] == ins[i]
    {
      if RatioLaws(ratio) && ins[i] in vocabulary {
        CloseMatchKeepsKnownWord(ratio, ins[i], vocabulary);
      }
    }
  }
}

=== FILE: text.dfy ===
/** The string primitives the chatbot relies on: Python's `str.lower()`,
    argument-less `str.split()` and `" ".join(...)`. */
module Text {

  /** The characters for which Python's `str.isspace()` holds; these are the
      separators of an argument-less `str.split()`. */
  predicate IsSpace(c: char) {
    || ('\t' <= c <= '\r')
    || ('\U{1C}' <= c <= ' ')
    || c == '\U{85}' || c == '\U{A0}' || c == '\U{1680}'
    || ('\U{2000}' <= c <= '\U{200A}')
    || c == '\U{2028}' || c == '\U{2029}' || c == '\U{202F}'
    || c == '\U{205F}' || c == '\U{3000}'
  }

  /** Lower-casing of one character, for the ASCII and Latin-1 upper-case letters. */
  function LowerChar(c: char): char {
    if 'A' <= c <= 'Z' || ('\U{C0}' <= c <= '\U{DE}' && c != '\U{D7}') then
      (c as int + 32) as char
    else
      c
  }

  /** `s.lower()`, character by character: every capital becomes its small
      letter, 32 code points further on; every other character, the
      separators among them, is kept; no ASCII capital is left. */
  function Lower(s: string): (r: string)
    ensures |r| == |s|
    ensures forall i :: 0 <= i < |s| && 'A' <= s[i] <= 'Z' ==> r[i] as int == s[i] as int + 32
    ensures forall i :: 0 <= i < |s| && '\U{C0}' <= s[i] <= '\U{DE}' && s[i] != '\U{D7}' ==>
      r[i] as int == s[i] as int + 32
    ensures forall i :: 0 <= i < |s| && !('A' <= s[i] <= 'Z') && !('\U{C0}' <= s[i] <= '\U{DE}' && s[i] != '\U{D7}') ==>
      r[i] == s[i]
    ensures forall i :: 0 <= i < |s| ==> (IsSpace(r[i]) <==> IsSpace(s[i]))
    ensures forall i :: 0 <= i < |r| ==> !('A' <= r[i] <= 'Z')
  {
    seq(|s|, i requires 0 <= i < |s| => LowerChar(s[i]))
  }

  /** Lower-casing twice changes nothing more. */
  lemma LowerIdempotent(s: string)
    ensures Lower(Lower(s)) == Lower(s)
  {
  }

  /** A word as `str.split()` produces it: non-empty and free of separators. */
  predicate IsWord(w: string) {
    |w| > 0 && forall i :: 0 <= i < |w| ==> !IsSpace(w[i])
  }

  /** Length of the run of non-separator characters at the start of `s`. */
  function WordLength(s: string): (n: nat)
    ensures n <= |s|
    ensures forall i :: 0 <= i < n ==> !IsSpace(s[i])
    ensures n < |s| ==> IsSpace(s[n])
  {
    if |s| == 0 || IsSpace(s[0]) then 0 else 1 + WordLength(s[1..])
  }

  /** `s.split()`: the maximal runs of non-separator characters, in order.
      Consecutive words are at least one separator apart, so there are at
      most `(|s| + 1) / 2` of them. */
  function Split(s: string): (ws: seq<string>)
    ensures 2 * |ws| <= |s| + 1
    decreases |s|
  {
    if |s| == 0 then []
    else if IsSpace(s[0]) then Split(s[1..])
    else
      var n := WordLength(s);
      assert n < |s| ==> Split(s[n..]) == Split(s[n + 1..]) by {
        if n < |s| {
          assert s[n..][1..] == s[n + 1..];
        }
      }
      [s[..n]] + Split(s[n..])
  }

  /** What `split` yields are words, and it yields none exactly when the
      string is blank. */
  lemma {:induction false} SplitWords(s: string)
    ensures forall i :: 0 <= i < |Split(s)| ==> IsWord(Split(s)[i])
    ensures Split(s) == [] <==> forall i :: 0 <= i < |s| ==> IsSpace(s[i])
    decreases |s|
  {
    if |s| > 0 {
      if IsSpace(s[0]) {
        SplitWords(s[1..]);
        assert forall i :: 1 <= i < |s| ==> s[i] == s[1..][i - 1];
      } else {
        var n := WordLength(s);
        SplitWords(s[n..]);
        assert IsWord(s[..n]);
        assert Split(s)[0] == s[..n];
        assert forall i :: 1 <= i < |Split(s)| ==> Split(s)[i] == Split(s[n..])[i - 1];
      }
    }
  }

  /** Total length of the strings of `ws`. */
  function TotalLength(ws: seq<string>): nat {
    if |ws| == 0 then 0 else |ws[0]| + TotalLength(ws[1..])
  }

  /** `" ".join(ws)`: the strings of `ws` with exactly one space between
      neighbours and none around them. */
  function Join(ws: seq<string>): (s: string)
    ensures |ws| == 0 ==> s == ""
    ensures |ws| > 0 ==> |s| == TotalLength(ws) + |ws| - 1 && s[..|ws[0]|] == ws[0]
  {
    if |ws| == 0 then ""
    else if |ws| == 1 then ws[0]
    else ws[0] + " " + Join(ws[1..])
  }

  /** Joining words only yields the empty string when there are no words. */
  lemma {:induction false} JoinEmpty(ws: seq<string>)
    requires forall i :: 0 <= i < |ws| ==> IsWord(ws[i])
    ensures Join(ws) == "" <==> ws == []
  {
    if |ws| > 1 {
      assert |Join(ws)| >= |ws[0]| > 0;
    }
  }

  /** Extending a string past the end of its first word leaves that word alone. */
  lemma {:induction false} WordLengthAppend(a: string, b: string)
    requires WordLength(a) < |a| || (|b| > 0 && IsSpace(b[0]))
    ensures WordLength(a + b) == WordLength(a)
    decreases |a|
  {
    if |a| == 0 {
      assert a + b == b;
    } else if IsSpace(a[0]) {
      assert (a + b)[0] == a[0];
    } else {
      assert (a + b)[0] == a[0];
      assert (a + b)[1..] == a[1..] + b;
      WordLengthAppend(a[1..], b);
    }
  }

  /** A word splits to itself. */
  lemma {:induction false} SplitWord(w: string)
    requires IsWord(w)
    ensures Split(w) == [w]
  {
    WordLengthFull(w);
    assert w[..|w|] == w;
    assert w[|w|..] == [];
  }

  /** A string without separators is one whole word run. */
  lemma {:induction false} WordLengthFull(w: string)
    requires forall i :: 0 <= i < |w| ==> !IsSpace(w[i])
    ensures WordLength(w) == |w|
    decreases |w|
  {
    if |w| > 0 {
      assert forall i :: 0 <= i < |w[1..]| ==> w[1..][i] == w[i + 1];
      WordLengthFull(w[1..]);
    }
  }

  /** Splitting two strings glued by one space is splitting each of them. */
  lemma {:induction false} SplitSpaceJoin(a: string, b: string)
    ensures Split(a + " " + b) == Split(a) + Split(b)
    decreases |a|
  {
    if |a| == 0 {
      SplitSpaceThen(b);
      assert a + " " + b == " " + b;
    } else if IsSpace(a[0]) {
      SplitSpaceJoin(a[1..], b);
      SplitLeadingSpaceGlued(a, b);
    } else {
      SplitSpaceJoin(a[WordLength(a)..], b);
      SplitLeadingWordGlued(a, b);
    }
  }

  /** A single leading space is skipped. */
  lemma SplitSpaceThen(b: string)
    ensures Split(" " + b) == Split(b)
  {
    SplitLeadingSpace(" " + b);
    assert (" " + b)[1..] == b;
  }

  /** A leading separator of `a` is skipped in `a + " " + b` as well. */
  lemma SplitLeadingSpaceGlued(a: string, b: string)
    requires |a| > 0 && IsSpace(a[0])
    requires Split(a[1..] + " " + b) == Split(a[1..]) + Split(b)
    ensures Split(a + " " + b) == Split(a) + Split(b)
  {
    GluedSpace(a, b);
    SplitLeadingSpace(a + " " + b);
    SplitLeadingSpace(a);
  }

  /** Gluing `" " + b` after `a` keeps the first character of `a`, and what
      follows it is the rest of `a` glued to `b`. */
  lemma GluedSpace(a: string, b: string)
    requires |a| > 0
    ensures (a + " " + b)[0] == a[0]
    ensures (a + " " + b)[1..] == a[1..] + " " + b
  {
  }

  /** A leading separator is skipped. */
  lemma SplitLeadingSpace(s: string)
    requires |s| > 0 && IsSpace(s[0])
    ensures Split(s) == Split(s[1..])
  {
  }

  /** The first word of `a` is also the first word of `a + " " + b`. */
  lemma SplitLeadingWordGlued(a: string, b: string)
    requires |a| > 0 && !IsSpace(a[0])
    requires Split(a[WordLength(a)..] + " " + b) == Split(a[WordLength(a)..]) + Split(b)
    ensures Split(a + " " + b) == Split(a) + Split(b)
  {
    var n := WordLength(a);
    GluedWord(a, b);
    SameLeadingWord(a + " " + b, a, n, a[..n], Split(a[n..]), Split(b));
  }

  /** Gluing `" " + b` after `a` keeps the first word of `a`, and what
      follows it is the rest of `a` glued to `b`. */
  lemma GluedWord(a: string, b: string)
    requires |a| > 0 && !IsSpace(a[0])
    ensures |a + " " + b| > 0 && (a + " " + b)[0] == a[0]
    ensures WordLength(a + " " + b) == WordLength(a)
    ensures (a + " " + b)[..WordLength(a)] == a[..WordLength(a)]
    ensures (a + " " + b)[WordLength(a)..] == a[WordLength(a)..] + " " + b
  {
    var c := " " + b;
    assert a + " " + b == a + c;
    WordLengthAppend(a, c);
    PrefixOfAppend(a, c, WordLength(a));
    assert a[WordLength(a)..] + c == a[WordLength(a)..] + " " + b;
  }

  /** Cutting `a + c` at a point inside `a`. */
  lemma PrefixOfAppend(a: string, c: string, n: nat)
    requires n <= |a|
    ensures (a + c)[..n] == a[..n]
    ensures (a + c)[n..] == a[n..] + c
  {
  }

  /** Two strings that start with the same word `w` of length `n` split
      alike up to the words of their remainders. */
  lemma SameLeadingWord(s: string, a: string, n: nat, w: string, rest: seq<string>, tail: seq<string>)
    requires |a| > 0 && !IsSpace(a[0]) && n == WordLength(a) && w == a[..n] && rest == Split(a[n..])
    requires |s| > 0 && !IsSpace(s[0]) && n == WordLength(s) && w == s[..n]
    requires Split(s[n..]) == rest + tail
    ensures Split(s) == Split(a) + tail
  {
    SplitFirstWordIs(s, n, w, rest + tail);
    SplitFirstWordIs(a, n, w, rest);
    ConsAppend(Split(s), Split(a), w, rest, tail);
  }

  /** Putting a word in front commutes with appending words behind. */
  lemma ConsAppend(x: seq<string>, y: seq<string>, w: string, rest: seq<string>, tail: seq<string>)
    requires x == [w] + (rest + tail) && y == [w] + rest
    ensures x == y + tail
  {
  }

  /** A string that starts with the word `w` of length `n` splits into `w`
      and the words `rest` of what follows it. */
  lemma SplitFirstWordIs(s: string, n: nat, w: string, rest: seq<string>)
    requires |s| > 0 && !IsSpace(s[0]) && n == WordLength(s)
    requires w == s[..n] && rest == Split(s[n..])
    ensures Split(s) == [w] + rest
  {
  }

  /** Round trip: splitting the space-join of words gives the words back. */
  lemma {:induction false} SplitJoin(ws: seq<string>)
    requires forall i :: 0 <= i < |ws| ==> IsWord(ws[i])
    ensures Split(Join(ws)) == ws
  {
    if |ws| == 1 {
      SplitWord(ws[0]);
    } else if |ws| > 1 {
      SplitSpaceJoin(ws[0], Join(ws[1..]));
      SplitWord(ws[0]);
      SplitJoin(ws[1..]);
    }
  }

  /** The words of the space-join of arbitrary strings are exactly the words
      of the individual strings. */
  lemma {:induction false} JoinedWords(ps: seq<string>, w: string)
    ensures w in Split(Join(ps)) <==> exists k :: 0 <= k < |ps| && w in Split(ps[k])
  {
    if |ps| > 1 {
      SplitSpaceJoin(ps[0], Join(ps[1..]));
      JoinedWords(ps[1..], w);
      if w in Split(Join(ps[1..])) {
        var k :| 0 <= k < |ps[1..]| && w in Split(ps[1..][k]);
        assert w in Split(ps[k + 1]);
      }
      if exists k :: 0 <= k < |ps| && w in Split(ps[k]) {
        var k :| 0 <= k < |ps| && w in Split(ps[k]);
        if k > 0 {
          assert ps[1..][k - 1] == ps[k];
        }
      }
    }
  }
}

=== FILE: vector_space.dfy ===
/** The bag-of-words model: `CountVectorizer().fit(padroes)`, `transform`,
    and the cosine similarity of two count vectors, kept exact. */
module VectorSpace {

  /** The vectoriser's analyzer (lower-casing and its token pattern), which
      turns a document into its sequence of terms. Its regular-expression
      tokenizer is outside the model and enters as a parameter. */
  type Analyzer = string -> seq<string>

  /** No term occurs twice. */
  predicate Distinct(v: seq<string>) {
    forall i, j :: 0 <= i < j < |v| ==> v[i] != v[j]
  }

  /** `v` followed by the terms of `terms` it does not hold yet. */
  function AddTerms(v: seq<string>, terms: seq<string>): (r: seq<string>)
    requires Distinct(v)
    ensures Distinct(r)
    ensures forall t :: t in r <==> t in v || t in terms
    decreases |terms|
  {
    if |terms| == 0 then v
    else if terms[0] in v then AddTerms(v, terms[1..])
    else AddTerms(v + [terms[0]], terms[1..])
  }

  /** `fit(docs)`: the terms of every document, each once. */
  function FitVocabulary(analyze: Analyzer, docs: seq<string>): (v: seq<string>)
    ensures Distinct(v)
    ensures forall t :: t in v <==> exists i :: 0 <= i < |docs| && t in analyze(docs[i])
  {
    if |docs| == 0 then []
    else
      var init := docs[..|docs| - 1];
      assert forall i :: 0 <= i < |init| ==> init[i] == docs[i];
      AddTerms(FitVocabulary(analyze, init), analyze(docs[|docs| - 1]))
  }

  /** The fitted vocabulary is empty exactly when no document has a term,
      which is when `fit` raises "empty vocabulary". */
  lemma VocabularyEmpty(analyze: Analyzer, docs: seq<string>)
    ensures |FitVocabulary(analyze, docs)| == 0 <==> forall i :: 0 <= i < |docs| ==> analyze(docs[i]) == []
  {
    var v := FitVocabulary(analyze, docs);
    if |v| > 0 {
      assert v[0] in v;
    }
    if i :| 0 <= i < |docs| && analyze(docs[i]) != [] {
      assert analyze(docs[i])[0] in v;
    }
  }

  /** `transform([text])` for text with terms `terms`: one count per
      vocabulary term; terms outside the vocabulary are not counted. */
  function Encode(vocabulary: seq<string>, terms: seq<string>): (v: seq<nat>)
    ensures |v| == |vocabulary|
    ensures forall j :: 0 <= j < |v| ==> (v[j] > 0 <==> vocabulary[j] in terms)
  {
    seq(|vocabulary|, j requires 0 <= j < |vocabulary| => multiset(terms)[vocabulary[j]])
  }

  /** Encoding counts occurrences: no terms give the zero vector, and one
      more term adds exactly one to its own vocabulary entry and nothing to
      any other. */
  lemma EncodeCounts(vocabulary: seq<string>, terms: seq<string>, t: string)
    ensures IsZero(Encode(vocabulary, []))
    ensures forall j :: 0 <= j < |vocabulary| ==>
      Encode(vocabulary, terms + [t])[j] == Encode(vocabulary, terms)[j] + (if vocabulary[j] == t then 1 else 0)
  {
    assert multiset(terms + [t]) == multiset(terms) + multiset{t};
  }

  /** Every entry is zero. */
  predicate IsZero(v: seq<nat>) {
    forall j :: 0 <= j < |v| ==> v[j] == 0
  }

  /** A text encodes to the zero vector exactly when none of its terms is in
      the vocabulary. */
  lemma EncodeZero(vocabulary: seq<string>, terms: seq<string>)
    ensures IsZero(Encode(vocabulary, terms)) <==> forall t :: t in terms ==> t !in vocabulary
  {
    var v := Encode(vocabulary, terms);
    if t :| t in terms && t in vocabulary {
      var j :| 0 <= j < |vocabulary| && vocabulary[j] == t;
      assert v[j] > 0;
    }
  }

  /** A term outside the vocabulary changes no entry of the encoding. */
  lemma EncodeIgnoresUnknown(vocabulary: seq<string>, terms: seq<string>, t: string)
    requires t !in vocabulary
    ensures Encode(vocabulary, terms + [t]) == Encode(vocabulary, terms)
  {
    assert multiset(terms + [t]) == multiset(terms) + multiset{t};
  }

  /** Dot product of two count vectors. */
  function Dot(a: seq<nat>, b: seq<nat>): nat
    requires |a| == |b|
  {
    if |a| == 0 then 0 else a[0] * b[0] + Dot(a[1..], b[1..])
  }

  /** Squared Euclidean norm. */
  function NormSq(a: seq<nat>): nat {
    Dot(a, a)
  }

  /** The squared norm vanishes exactly on the zero vector. */
  lemma {:induction false} NormSqZero(a: seq<nat>)
    ensures NormSq(a) == 0 <==> IsZero(a)
  {
    if |a| > 0 {
      NormSqZero(a[1..]);
      assert a[0] * a[0] == 0 <==> a[0] == 0;
      assert IsZero(a) <==> a[0] == 0 && IsZero(a[1..]) by {
        assert forall j :: 1 <= j < |a| ==> a[j] == a[1..][j - 1];
      }
    }
  }

  /** The zero vector is orthogonal to everything. */
  lemma {:induction false} DotZero(a: seq<nat>, b: seq<nat>)
    requires |a| == |b| && IsZero(a)
    ensures Dot(a, b) == 0
  {
    if |a| > 0 {
      assert IsZero(a[1..]) by {
        assert forall j :: 0 <= j < |a[1..]| ==> a[1..][j] == a[j + 1];
      }
      DotZero(a[1..], b[1..]);
    }
  }

  /** Dot product is symmetric. */
  lemma {:induction false} DotSymmetric(a: seq<nat>, b: seq<nat>)
    requires |a| == |b|
    ensures Dot(a, b) == Dot(b, a)
  {
    if |a| > 0 {
      DotSymmetric(a[1..], b[1..]);
    }
  }

  /** Sum over all entries of `(x * b[j] - y * a[j])^2`. */
  function CrossSquares(x: int, y: int, a: seq<nat>, b: seq<nat>): (s: int)
    requires |a| == |b|
    ensures s >= 0
  {
    if |a| == 0 then 0
    else
      var t := x * b[0] - y * a[0];
      SquareNonNegative(t);
      t * t + CrossSquares(x, y, a[1..], b[1..])
  }

  lemma SquareNonNegative(t: int)
    ensures t * t >= 0
  {
    if t < 0 {
      assert t * t == (-t) * (-t);
    }
  }

  /** `(x*b0 - y*a0)^2` multiplied out. */
  lemma SquareOfDifference(x: int, y: int, a0: int, b0: int)
    ensures (x * b0 - y * a0) * (x * b0 - y * a0)
         == x * x * (b0 * b0) + y * y * (a0 * a0) - 2 * x * y * (a0 * b0)
  {
  }

  /** `k * (u + v) == k * u + k * v`. */
  lemma Distribute(k: int, u: int, v: int)
    ensures k * (u + v) == k * u + k * v
  {
  }

  /** Expanding the squares of `CrossSquares`. */
  lemma {:induction false} CrossSquaresExpand(x: int, y: int, a: seq<nat>, b: seq<nat>)
    requires |a| == |b|
    ensures CrossSquares(x, y, a, b) == x * x * NormSq(b) + y * y * NormSq(a) - 2 * x * y * Dot(a, b)
  {
    if |a| > 0 {
      var a0, b0 := a[0] as int, b[0] as int;
      CrossSquaresExpand(x, y, a[1..], b[1..]);
      var na, nb, d := NormSq(a[1..]), NormSq(b[1..]), Dot(a[1..], b[1..]);
      assert NormSq(a) == a0 * a0 + na;
      assert NormSq(b) == b0 * b0 + nb;
      assert Dot(a, b) == a0 * b0 + d;
      SquareOfDifference(x, y, a0, b0);
      Distribute(x * x, b0 * b0, nb);
      Distribute(y * y, a0 * a0, na);
      Distribute(2 * x * y, a0 * b0, d);
    }
  }

  /** The step of Cauchy-Schwarz, in plain integers: adding one coordinate
      pair keeps the squared dot product below the product of squared norms. */
  lemma CauchySchwarzStep(x: int, y: int, na: int, nb: int, d: int, cross: int)
    requires d * d <= na * nb
    requires 0 <= cross == x * x * nb + y * y * na - 2 * x * y * d
    ensures (x * y + d) * (x * y + d) <= (x * x + na) * (y * y + nb)
  {
    ExpandProduct(x * x, na, y * y, nb);
    ExpandSquare(x * y, d);
    assert x * y * (x * y) == x * x * (y * y) by {
      MultiplyFour(x, y);
    }
  }

  /** `(p + q)(r + t) = pr + pt + qr + qt`. */
  lemma ExpandProduct(p: int, q: int, r: int, t: int)
    ensures (p + q) * (r + t) == p * r + p * t + q * r + q * t
  {
  }

  /** `(u + d)² = u² + 2ud + d²`. */
  lemma ExpandSquare(u: int, d: int)
    ensures (u + d) * (u + d) == u * u + 2 * u * d + d * d
  {
  }

  /** `(xy)² = x²y²`. */
  lemma MultiplyFour(x: int, y: int)
    ensures x * y * (x * y) == x * x * (y * y)
  {
  }

  /** Cauchy-Schwarz: the squared dot product is at most the product of the
      squared norms. */
  lemma {:induction false} CauchySchwarz(a: seq<nat>, b: seq<nat>)
    requires |a| == |b|
    ensures Dot(a, b) * Dot(a, b) <= NormSq(a) * NormSq(b)
  {
    if |a| > 0 {
      var x, y := a[0] as int, b[0] as int;
      var na, nb, d := NormSq(a[1..]), NormSq(b[1..]), Dot(a[1..], b[1..]);
      CauchySchwarz(a[1..], b[1..]);
      CrossSquaresExpand(x, y, a[1..], b[1..]);
      CauchySchwarzStep(x, y, na, nb, d, CrossSquares(x, y, a[1..], b[1..]));
      assert NormSq(a) == x * x + na;
      assert NormSq(b) == y * y + nb;
      assert Dot(a, b) == x * y + d;
    }
  }

  /** Dividing by a positive denominator: the quotient exceeds 1/4 exactly
      when four times the numerator exceeds the denominator, and it is at
      most 1 when the numerator is at most the denominator. */
  lemma QuotientFacts(num: real, den: real)
    requires den > 0.0
    ensures num / den > 0.25 <==> 4.0 * num > den
    ensures 0.0 <= num <= den ==> 0.0 <= num / den <= 1.0
  {
    var c := num / den;
    assert c * den == num;
  }

  /** The square of `cosine_similarity(q, p)`, exactly: the squared dot
      product over the product of the squared norms, and 0 when either
      vector is zero. Both vectors have non-negative entries, so the cosine
      itself is the non-negative square root of this value and the two
      order scores identically. */
  function CosineSquared(q: seq<nat>, p: seq<nat>): (c: real)
    requires |q| == |p|
    ensures 0.0 <= c <= 1.0
    ensures IsZero(q) || IsZero(p) ==> c == 0.0
  {
    var d := Dot(q, p);
    var n := NormSq(q) * NormSq(p);
    CauchySchwarz(q, p);
    NormSqZero(q);
    NormSqZero(p);
    if n == 0 then 0.0
    else
      QuotientFacts((d * d) as real, n as real);
      (d * d) as real / n as real
  }

  /** The acceptance test `cosine > 0.5`, in integers: since the cosine is
      non-negative it is `4 * dot^2 > |q|^2 * |p|^2`. */
  predicate AboveHalf(q: seq<nat>, p: seq<nat>)
    requires |q| == |p|
    ensures AboveHalf(q, p) ==> Dot(q, p) > 0
  {
    4 * Dot(q, p) * Dot(q, p) > NormSq(q) * NormSq(p)
  }

  /** The integer test agrees with the exact squared cosine exceeding 1/4. */
  lemma AboveHalfExact(q: seq<nat>, p: seq<nat>)
    requires |q| == |p|
    ensures AboveHalf(q, p) <==> CosineSquared(q, p) > 0.25
  {
    var d := Dot(q, p);
    var n := NormSq(q) * NormSq(p);
    if n == 0 {
      if NormSq(q) == 0 {
        NormSqZero(q);
        DotZero(q, p);
      } else {
        NormSqZero(p);
        DotSymmetric(q, p);
        DotZero(p, q);
      }
    } else {
      QuotientFacts((d * d) as real, n as real);
    }
  }

  /** A non-zero vector has cosine 1 with itself. */
  lemma SelfSimilarity(p: seq<nat>)
    requires !IsZero(p)
    ensures CosineSquared(p, p) == 1.0
  {
    NormSqZero(p);
    assert Dot(p, p) * Dot(p, p) == NormSq(p) * NormSq(p);
  }
}

=== FILE: wrappers.dfy ===
/** Option and Result types shared by the chatbot model. */
module Wrappers {

  /** A value that may be absent: Python's `None` versus a present value. */
  datatype Option<+T> = None | Some(value: T)

  /** The outcome of an operation that the source lets raise an exception. */
  datatype Result<+R, +E> = Success(value: R) | Failure(error: E)
}
